=== FILE: README.md ===
# Wedding site gift registry — a Dafny model

This project models the logic of a wedding website: guests RSVP and contribute toward gift-registry items, and a password-gated admin page exports that data as CSV. The model covers these parts:

- **Backend ledger** (`ledger.dfy`, module `Ledger`). It covers `POST /registry/contribute` and `POST /rsvp` from `backend/server.py`.
  - A registry is a sequence of gift items. Each item has a `total` target, a running `contributed` amount and an append-only list of contributions.
  - A contribution to an unknown id fails with 404 "Item not found".
  - A contribution that would take `contributed` above `total` fails with 400 "Contribution exceeds item total".
  - Otherwise the amount is added and one contribution is appended.
  - The handler does not check the sign of the amount.
  - Creating an RSVP always appends one record. Nothing is validated or deduplicated.
- **Seed** (`seed.dfy`, module `Seed`). `backend/init_registry.py` empties the registry and inserts four fixed items.
- **Guest registry page** (`registry_page.dfy`, module `RegistryPage`). It covers `frontend/src/pages/Registry.jsx`:
  - the JavaScript submit handlers for contributions and RSVPs, and the checks they make before anything is posted. The browser's own form validation runs before a handler and is not modelled (see "Left out"). The registry page never shows an RSVP form (`onRSVPClick` is a no-op, `frontend/src/pages/Registry.jsx:228`). Its `handleRsvpSubmit` is the same code as the home page's (`frontend/src/pages/Homepage.jsx:31-52`), whose form guests use;
  - the remaining amount, the "purchased" test and the progress percentage;
  - what each item card shows.
- **CSV serialiser** (`csv.dfy`, module `Csv`). This is `exportToCSV` from `frontend/src/pages/AdminPage.jsx`.
  - The output is a header line, then one line per row, joined with line breaks.
  - Each cell is the row's value under a key derived from the header name. It is wrapped in double quotes with no escaping.
  - A separate reader for that shape is defined, and the two are proved to agree. The reader keeps a line break inside a quoted field, as a CSV reader does, so multi-line wishes read back whole. Only a `"` inside a value breaks the format.
- **Admin page** (`admin_page.dfy`, module `AdminPage`). It covers:
  - the password check on login;
  - the `.csv` file-name guard before an upload;
  - the RSVP and contribution exports. The contribution export has one row per contribution, in item order and then contribution order.
- **Countdown** (`countdown.dfy`, module `Countdown`). It splits a millisecond difference into days, hours, minutes and seconds, following `frontend/src/components/Countdown.jsx`.
  - The source's real-valued formulas, JavaScript's `%` and `Math.floor` are stated on exact reals.
  - They are proved equal to integer division and remainder.
- `text.dfy` (module `Text`) holds JavaScript's `join`, `split` and `endsWith`. `common.dfy` holds `Option`.

Money is an exact Dafny `real`. Timestamps are integers supplied by the caller. The uuid for a new RSVP is also a parameter. The same goes for the admin secret and for the number and date formatters (`toFixed(2)`, `toLocaleString()`) used by the exports. JavaScript's `parseFloat` and `parseInt` results are inputs to the submit handlers. So their type `Parsed<T>` carries NaN explicitly. It does not carry the ±Infinity that `parseFloat` can also return (see "Non-finite amounts" below).

Some behaviour of the code is worth stating plainly, because a reader might expect otherwise:

- **Contribution cap.** The backend refuses with 400 a contribution that would take `contributed` past `total` (`backend/server.py:119-121`).
- **No backend amount or name checks.** The backend checks neither the sign of the amount nor the contributor name. Only the page's handler refuses an empty field or a numeric amount ≤ 0 (`frontend/src/pages/Registry.jsx:54-63`). A request sent to the backend directly with a negative amount is accepted and lowers `contributed` (`Seed.NegativeAmountAccepted`).
- **No guest-count check in the code.** Neither the RSVP submit handler nor the backend checks the guest count; the handler only checks that the field is non-empty (`RegistryPage.ZeroPaxGetsThrough`). In the home page's form the browser's `min="1"` stops a count of 0 before the handler runs (`frontend/src/pages/Homepage.jsx:209-217`).
- **No CSV import.** No backend route handles the CSV upload the admin page posts. The only CSV code is the client-side export modelled here, with contribution columns `Item_Name, Contributor_Name, Amount, Timestamp`.

## Model

| member | source | states |
|---|---|---|
| Ledger.FindItem | backend/server.py:107-110 | The result is absent exactly when no item has the id. Otherwise it is the first position holding that id. |
| Ledger.AddContribution | backend/server.py:105-134 | An unknown id gives 404 "Item not found". Success happens exactly when the first matching item's `contributed + amount <= total`; otherwise the error is 400. On success, `new_total` is old `contributed` + amount and is stored. Exactly one contribution (name, amount, time) is appended. The item's id, name, link and total do not change. Every other item is identical. |
| Ledger.AddContributionPreservesInvariant | backend/server.py:117-132 | A successful contribution keeps `contributed == sum of amounts` and `contributed <= total` for every item. |
| Ledger.Apply | backend/server.py:107-132 | After one request, an accepted request raises the found item's `contributed` by the amount and appends exactly one contribution (name, amount, time), and every other item is identical. A refused request (404 or 400) leaves the registry unchanged. Length, ids, names, links and totals are always kept. Each item's old contribution list is a prefix of its new one. |
| Ledger.Replay | backend/server.py:105-134 | After any sequence of requests, ids, names, links and totals are kept, and contribution lists only grow at the end. |
| Ledger.ReplayPreservesInvariant | backend/server.py:117-132 | After any sequence of requests, every item still has `contributed == sum of amounts <= total`. |
| Ledger.ReplayKeepsDistinctIds | backend/server.py:126-132 | Pairwise distinct item ids stay distinct under any sequence of requests. |
| Ledger.CreateRsvp | backend/server.py:72-80 | The list gains exactly one record at its end. The record carries the submitted name, pax and wishes, the supplied id and the time. The handler checks nothing, so the model refuses no input (the storage layer's 64-bit limit is listed under "Left out"). |
| Ledger.CreateRsvpNoDedup | backend/server.py:72-80 | Submitting a name that already exists adds one more record with that name. |
| Ledger.CreateRsvpFreshId | backend/server.py:37-44 | With an id no stored record has, record ids stay pairwise distinct. |
| Seed.InitRegistry | backend/init_registry.py:10-54 | The registry becomes exactly the four seed items, whatever it held before. Their ids are distinct. Each has `contributed` 0 and no contributions. Each total is positive, so the ledger invariant holds. |
| Seed.TwoContributionsToPlates | backend/server.py:117-134 | Contributions of 10 and 15 to the freshly seeded Plates both land: `contributed` is 25 with two contributions. |
| Seed.NegativeAmountAccepted | backend/server.py:112-121 | The backend accepts a negative amount to a seeded item, and `new_total` goes negative. |
| Seed.OverContributionRefused | backend/server.py:119-121 | An amount that takes Plates past its total of 100 is refused with 400. |
| RegistryPage.HandleContribute | frontend/src/pages/Registry.jsx:51-70 | An empty name or amount gives "Please fill in all fields". A numeric amount ≤ 0 is refused. The handler posts exactly when neither check fires. The body posted carries the item id, the name and the parsed amount. Any numeric amount posted is positive. The handler itself lets NaN through; the browser's number field keeps non-numeric text from reaching it. |
| RegistryPage.HandleRsvpSubmit | frontend/src/pages/Homepage.jsx:31-52 | The handler refuses the form ("Please fill in all required fields") exactly when the name or pax text is empty. Otherwise it posts the name, the parsed pax and the wishes. The same handler is repeated, unused, at `frontend/src/pages/Registry.jsx:87-109`. |
| RegistryPage.IsPurchased | frontend/src/pages/Registry.jsx:129-131 | With a positive total, the item counts as purchased exactly when its progress bar is at 100 or more. What that decides is stated by `RemainingAmount`, `ItemCard` and `PurchasedItemRefusesMore`. |
| RegistryPage.RemainingAmount | frontend/src/pages/Registry.jsx:125-127 | `contributed` + remaining = `total`. The remaining amount is positive exactly when the item is not purchased. |
| RegistryPage.ProgressPercentage | frontend/src/pages/Registry.jsx:121-123 | The percentage is defined exactly when `total` is non-zero, and then percentage × total = contributed × 100. With a positive total it is 100 exactly when `contributed == total`, and it lies in [0,100] when 0 ≤ contributed ≤ total. |
| RegistryPage.ItemCard | frontend/src/pages/Registry.jsx:179-217 | The badge shows exactly when the Contribute button does not. The remaining text shows exactly when the button does, and then its amount is strictly positive. The button shows exactly when `contributed < total`. The remaining amount shown plus `contributed` is `total`. The progress bar has a value exactly when `total` is non-zero, and then value × total = contributed × 100. |
| RegistryPage.GuardedContributionRaisesTotal | frontend/src/pages/Registry.jsx:59-70 | A numeric amount that passes the page's guard and is accepted by the server strictly raises the item's `contributed`. |
| RegistryPage.PurchasedItemRefusesMore | frontend/src/pages/Registry.jsx:209-217 | For an item whose Contribute button is hidden, the server refuses any positive amount with 400. |
| RegistryPage.ZeroPaxGetsThrough | frontend/src/pages/Homepage.jsx:34-44 | The submit handler does not refuse pax text "0", and the server stores a record with pax 0. Only the browser's `min="1"` on the field stops it. |
| Csv.ColumnKey | frontend/src/pages/AdminPage.jsx:61 | The key has the header's length. Each space becomes `_`, each ASCII capital becomes its lower-case letter (code + 32), and every other character is kept. So the key holds no space and no capital. |
| Csv.Cell | frontend/src/pages/AdminPage.jsx:61-62 | A truthy value stored under the header's key gives that value's text. A non-empty cell comes only from such a value, so a missing or falsy value gives "". |
| Csv.ExportToCsv | frontend/src/pages/AdminPage.jsx:57-64 | The text starts with the headers joined by `,`. When there are rows, a line break follows that header line. |
| Csv.ReadRecordJoin | frontend/src/pages/AdminPage.jsx:60-63 | A record of quoted, comma-joined values reads back as exactly those values when none holds a quote, even if a value holds line breaks. The reader then resumes after the line break that ends the record. |
| Csv.ReadRecordsJoin | frontend/src/pages/AdminPage.jsx:58-64 | Records joined with line breaks read back as exactly their rows, one per record, in order. |
| Csv.ExportReadRoundTrip | frontend/src/pages/AdminPage.jsx:58-64 | Reading the export recovers the headers and, for each row in data order, one record with one cell per header in header order. This holds when there is at least one header, headers hold no comma or line break, and cells hold no quote. When no cell holds a line break either, the text has exactly `1 + rows` lines. |
| AdminPage.HandleLogin | frontend/src/pages/AdminPage.jsx:46-55 | The dashboard opens exactly when the typed password equals the secret, unless it was already open. A mismatch clears the password field and shows "Incorrect password". |
| AdminPage.LoginAttemptsOpenIff | frontend/src/pages/AdminPage.jsx:46-55 | Starting logged out, a series of attempts opens the dashboard exactly when one of them equals the secret. |
| AdminPage.HandleFileUpload | frontend/src/pages/AdminPage.jsx:100-107 | With no file nothing happens. A file is uploaded exactly when its name ends in `.csv`. Any other name is refused with "Please upload a CSV file". |
| AdminPage.UploadRefusesUpperCaseSuffix | frontend/src/pages/AdminPage.jsx:104-107 | The suffix test is case-sensitive: `gifts.CSV` is refused. |
| AdminPage.AllContributionRows | frontend/src/pages/AdminPage.jsx:84-95 | The number of exported rows equals the total number of contributions over all items. |
| AdminPage.ContributionRowAt | frontend/src/pages/AdminPage.jsx:85-95 | Row `Offset(i) + j` is contribution `j` of item `i`, so the order is item order and then contribution order. Each row carries its owning item's name. |
| AdminPage.HeadersMatchRowKeys | frontend/src/pages/AdminPage.jsx:73-96 | For both exports, the keys derived from the headers are exactly the keys each row carries. |
| AdminPage.ZeroPaxExportsEmpty | frontend/src/pages/AdminPage.jsx:73-80 | A guest count of 0 is falsy, so it exports as an empty Pax cell. |
| AdminPage.PositivePaxExportsDigits | frontend/src/pages/AdminPage.jsx:73-80 | A positive guest count exports as its decimal digits. |
| AdminPage.ContributionLinesAreCells | frontend/src/pages/AdminPage.jsx:85-95 | The cells of the exported rows, in order, are exactly `ContributionLines`: the texts taken from the registry alone. |
| AdminPage.ContributionLinesAt | frontend/src/pages/AdminPage.jsx:85-95 | Record `Offset(i) + j` of `ContributionLines` holds item `i`'s name, then the contributor, `RM ` + amount and time of contribution `j`. |
| AdminPage.ExportRsvps | frontend/src/pages/AdminPage.jsx:73-82 | The file starts with the header line the source writes, `Name`, `Pax`, `Wishes` and `Timestamp` joined by commas (25 characters), and a line break follows it when there are RSVPs. Its rows are stated by `ExportRsvpsReadBack`. |
| AdminPage.ExportContributions | frontend/src/pages/AdminPage.jsx:84-98 | The file starts with the header line the source writes, `Item_Name`, `Contributor_Name`, `Amount` and `Timestamp` joined by commas (43 characters), and a line break follows it when any item has a contribution. Its rows are stated by `AllContributionRows` and `ExportContributionsReadBack`. |
| AdminPage.ExportContributionsReadBack | frontend/src/pages/AdminPage.jsx:84-96 | Reading the contributions export gives its header and exactly `ContributionLines`: one record per contribution, in item order and then contribution order. |
| AdminPage.ExportRsvpsReadBack | frontend/src/pages/AdminPage.jsx:73-80 | Reading the RSVP export gives its header and, in list order, each record's name, guest count (empty when 0), wishes and time. Multi-line wishes come back whole. |
| Countdown.CalculateTimeLeft | frontend/src/components/Countdown.jsx:12-23 | A difference ≤ 0 keeps the previous state. A positive difference gives `days = difference div 86400000`, hours in [0,24), minutes and seconds in [0,60), and `days*86400 + hours*3600 + minutes*60 + seconds == difference div 1000`. |
| Countdown.IntegerTimeLeft | frontend/src/components/Countdown.jsx:17-20 | Each floored real-valued formula equals the integer quotient and remainder. Together they add back up to the whole seconds. |
| Countdown.TicksFreezeAfterTarget | frontend/src/components/Countdown.jsx:4-26 | Once the target has passed, later ticks leave the display at its last value, which is all zeros if it was never set. |

## Left out

- **CSV upload and import.** The page posts the chosen file to `/registry/upload-csv` (`frontend/src/pages/AdminPage.jsx:109-130`), but `backend/server.py` has no such route, so there is no import logic to model. Only the `.csv` name guard in front of the request is modelled. The sample-template download (`AdminPage.jsx:133-148`) only produces a fixed example file.
- **Read-only handlers.** `GET /rsvp` and `GET /registry` read with `.to_list(1000)` (`backend/server.py:84`, `backend/server.py:95`), so each returns at most 1000 stored records and silently drops the rest. They also convert ISO timestamps, and the root route returns a fixed message. The admin page exports the lists it fetched from these routes (`frontend/src/pages/AdminPage.jsx:32-37`). So the inputs of `ExportRsvps` and `ExportContributions` are those fetched lists, not the whole collections. The storage read and its cap are not modelled.
- **Storage, routing and plumbing.** MongoDB/Motor calls, FastAPI routing, CORS and logging are not modelled. Each handler is one function from the stored collections to the response and the new collections.
- **Concurrency.** `add_contribution` reads the item and then updates it in a separate call. Two concurrent requests can lose an update. The model treats the handler as one sequential step.
- **Floating point.** Money is an exact `real`. Float rounding of `contributed + amount`, and any drift in the sum invariant it could cause, are not modelled.
- **Request-shape validation (422).** Pydantic rejects missing or mistyped fields. A NaN amount sent by the page is serialised as `null` and rejected. The model's request bodies are already typed.
- **Non-finite amounts.** A request sent to the backend directly may carry a raw `NaN`, `Infinity` or `-Infinity` amount: Python's JSON decoder accepts these words, and Pydantic's `float` lets them through. For NaN, `contributed + amount > total` is False (`backend/server.py:117-121`), so the contribution is stored, `contributed` becomes NaN, and that item's cap never fires again. `-Infinity` is accepted the same way and makes `contributed` infinite. So the program keeps `contributed <= total` (`Ledger.ReplayPreservesInvariant`) only for finite amounts. The model's `real` has no non-finite values, so this path is not modelled. For the same reason `Parsed<T>` has NaN but no ±Infinity.
- **Missing `contributed` field.** `item.get('contributed', 0)` uses a default that never applies here. Every stored item carries `contributed`, because the seed writes it and the model's `GiftItem` always has it.
- **Number parsing.** The `parseFloat`/`parseInt` string grammars are not modelled. Their results are inputs.
- **Formatting.** `toFixed(2)`, `toLocaleString()` and `new Date(...)` parsing are formatter parameters of the exports.
- **Lower-casing.** `ColumnKey` lower-cases ASCII letters only. Non-ASCII case mappings are not modelled.
- **Large numbers.** `IntText` writes plain decimal digits. The exponent notation JavaScript uses at 1e21 and above is not modelled.
- Ledger.CreateRsvp: stores a guest count of any size. The real handler hands the record to MongoDB (`backend/server.py:79`), whose BSON encoder takes only signed 64-bit integers. A `pax` with absolute value 2^63 or more therefore makes `insert_one` raise, the request ends in a 500, and nothing is stored. The model's `int` has no width, so this failure is not modelled.
- AdminPage.PositivePaxExportsDigits: states the exact digits of the guest count. The admin page receives `pax` through JSON as a JavaScript number (`frontend/src/pages/AdminPage.jsx:36`, `frontend/src/pages/AdminPage.jsx:76`), a double. A count above 2^53 may be rounded before it is written, so 9007199254740993 exports as "9007199254740992". The model keeps `pax` an exact integer, so its digits match what the program writes only for counts up to 2^53.
- **Clocks and timers.** The clock read behind `isRsvpClosed`, the countdown's `setInterval` and `new Date()` are not modelled. The countdown's difference is an input, and `Ticks` stands for a run of timer callbacks.
- **Admin password.** The hard-coded password is not reproduced. `HandleLogin` compares against a secret parameter.
- **Toasts and resets.** After a successful post the page shows toasts, resets forms, closes modals and refetches. That is presentation.
- **Non-finite progress.** `ProgressPercentage` returns `None` where JavaScript would produce Infinity or NaN for a zero total.
- **Unescaped CSV cells.** The export wraps cells in quotes without doubling a `"` inside them. A cell holding `"` therefore does not read back as one cell, so the round-trip lemmas assume no such cell. That is the source's behaviour, not a weakening. Line breaks inside cells are allowed.
- **Browser form validation.** The browser checks `required`, `type="number"`, `min` and `step` before a submit handler runs: the contribution amount (`frontend/src/pages/Registry.jsx:275-283`) and the guest count (`frontend/src/pages/Homepage.jsx:209-217`). The model covers the JavaScript handlers only. So what the handlers let through (NaN, a guest count of 0) may still be stopped earlier by the browser.
- Csv.Cell: a key missing from the row reads as `undefined`. In JavaScript, `row[key]` on an object also finds inherited properties, so a header such as "Constructor" (key `constructor`) or one whose key is `__proto__` would export the inherited value's text. Both exports use fixed headers whose keys are the rows' own keys (`AdminPage.HeadersMatchRowKeys`), so the program never reaches this case.
- **Presentation-only files.** The rest of `Homepage.jsx` (its RSVP handler is `RegistryPage.HandleRsvpSubmit`), `DoorEntrance.jsx`, `MenuBar.jsx`, `Modal.js` and `App.js` are presentation and routing only.

=== FILE: admin_page.dfy ===
/** The password-gated admin dashboard (frontend/src/pages/AdminPage.jsx): the
    login check, the guard in front of a CSV upload, and the two exports built
    on `ExportToCsv`. Number and date formatting (`toFixed(2)`,
    `toLocaleString()`) are parameters. */
module AdminPage {
  import opened Common
  import opened Text
  import opened Csv
  import opened Ledger

  /** The login form's state: whether the dashboard is open, and the text in
      the password field. */
  datatype LoginState = LoginState(authenticated: bool, password: string)

  datatype Toast = Success(message: string) | Error(message: string)

  /** `handleLogin`: the typed password against the dashboard's secret. A match
      opens the dashboard; a mismatch clears the field. */
  function HandleLogin(s: LoginState, secret: string): (r: (LoginState, Toast))
    ensures r.0.authenticated <==> s.authenticated || s.password == secret
    ensures s.password == secret ==> r == (LoginState(true, s.password), Success("Welcome back!"))
    ensures s.password != secret ==> r == (LoginState(s.authenticated, ""), Error("Incorrect password"))
  {
    if s.password == secret then (LoginState(true, s.password), Success("Welcome back!"))
    else (LoginState(s.authenticated, ""), Error("Incorrect password"))
  }

  /** Typing each attempt into the field and submitting it, in order. */
  function LoginAttempts(s: LoginState, attempts: seq<string>, secret: string): LoginState
    decreases |attempts|
  {
    if |attempts| == 0 then s
    else LoginAttempts(HandleLogin(s.(password := attempts[0]), secret).0, attempts[1..], secret)
  }

  /** The dashboard opens exactly when some attempt equals the secret. */
  lemma {:induction false} LoginAttemptsOpenIff(attempts: seq<string>, secret: string)
    ensures LoginAttempts(LoginState(false, ""), attempts, secret).authenticated
        <==> exists k :: 0 <= k < |attempts| && attempts[k] == secret
  {
    LoginAttemptsFrom(LoginState(false, ""), attempts, secret);
  }

  lemma {:induction false} LoginAttemptsFrom(s: LoginState, attempts: seq<string>, secret: string)
    ensures LoginAttempts(s, attempts, secret).authenticated
        <==> s.authenticated || exists k :: 0 <= k < |attempts| && attempts[k] == secret
    decreases |attempts|
  {
    if |attempts| > 0 {
      var next := HandleLogin(s.(password := attempts[0]), secret).0;
      LoginAttemptsFrom(next, attempts[1..], secret);
      assert forall k :: 0 < k < |attempts| ==> attempts[k] == attempts[1..][k - 1];
      if exists k :: 0 <= k < |attempts[1..]| && attempts[1..][k] == secret {
        var k :| 0 <= k < |attempts[1..]| && attempts[1..][k] == secret;
        assert attempts[k + 1] == secret;
      }
    }
  }

  /** What choosing a file for upload does before any request. */
  datatype UploadStep = NoFile | NotCsv(message: string) | Upload(fileName: string)

  /** The guard at the top of `handleFileUpload`: nothing chosen does nothing; a
      name not ending in `.csv` (case-sensitive) is refused. */
  function HandleFileUpload(file: Option<string>): (r: UploadStep)
    ensures r.NoFile? <==> file.None?
    ensures r.Upload? <==> file.Some? && EndsWith(file.value, ".csv")
    ensures r.Upload? ==> r.fileName == file.value
    ensures r.NotCsv? ==> r.message == "Please upload a CSV file"
  {
    match file
    case None => NoFile
    case Some(name) => if !EndsWith(name, ".csv") then NotCsv("Please upload a CSV file") else Upload(name)
  }

  lemma UploadAcceptsCsvSuffix(stem: string)
    ensures HandleFileUpload(Some(stem + ".csv")) == Upload(stem + ".csv")
  {
    var name := stem + ".csv";
    assert name[|name| - 4..] == ".csv";
  }

  lemma UploadRefusesUpperCaseSuffix()
    ensures HandleFileUpload(Some("gifts.CSV")).NotCsv?
  {
    assert "gifts.CSV"[5..] != ".csv" by { assert "gifts.CSV"[6] == 'C'; }
  }

  //
  // Exports
  //

  const RsvpHeaders: seq<string> := ["Name", "Pax", "Wishes", "Timestamp"]
  const ContributionHeaders: seq<string> := ["Item_Name", "Contributor_Name", "Amount", "Timestamp"]

  /** The keys the export headers stand for. */
  lemma RsvpKeys()
    ensures ColumnKey("Name") == "name" && ColumnKey("Pax") == "pax"
    ensures ColumnKey("Wishes") == "wishes" && ColumnKey("Timestamp") == "timestamp"
  {
  }

  lemma ContributionKeys()
    ensures ColumnKey("Item_Name") == "item_name" && ColumnKey("Contributor_Name") == "contributor_name"
    ensures ColumnKey("Amount") == "amount" && ColumnKey("Timestamp") == "timestamp"
  {
  }

  function RsvpRow(r: Rsvp, showTime: Timestamp -> string): Row
  {
    map["name" := JStr(r.name), "pax" := JInt(r.pax), "wishes" := JStr(r.wishes),
        "timestamp" := JStr(showTime(r.timestamp))]
  }

  function RsvpRows(rsvps: seq<Rsvp>, showTime: Timestamp -> string): (rows: seq<Row>)
    ensures |rows| == |rsvps|
  {
    seq(|rsvps|, k requires 0 <= k < |rsvps| => RsvpRow(rsvps[k], showTime))
  }

  /** The RSVP header line, written out. */
  lemma RsvpHeaderLine()
    ensures HeaderLine(RsvpHeaders) == "Name" + "," + "Pax" + "," + "Wishes" + "," + "Timestamp"
  {
    assert RsvpHeaders[1..] == ["Pax", "Wishes", "Timestamp"];
    assert RsvpHeaders[1..][1..] == ["Wishes", "Timestamp"];
    assert RsvpHeaders[1..][1..][1..] == ["Timestamp"];
  }

  /** The contributions header line, written out. */
  lemma ContributionHeaderLine()
    ensures HeaderLine(ContributionHeaders)
      == "Item_Name" + "," + "Contributor_Name" + "," + "Amount" + "," + "Timestamp"
  {
    assert ContributionHeaders[1..] == ["Contributor_Name", "Amount", "Timestamp"];
    assert ContributionHeaders[1..][1..] == ["Amount", "Timestamp"];
    assert ContributionHeaders[1..][1..][1..] == ["Timestamp"];
  }

  /** `exportRSVPs`: the CSV text of the RSVP list. */
  function ExportRsvps(rsvps: seq<Rsvp>, showTime: Timestamp -> string): (csv: string)
    ensures "Name" + "," + "Pax" + "," + "Wishes" + "," + "Timestamp" <= csv
    ensures |rsvps| > 0 ==> 25 < |csv| && csv[25] == '\n'
  {
    RsvpHeaderLine();
    ExportToCsv(RsvpRows(rsvps, showTime), RsvpHeaders)
  }

  function ContributionRow(item: GiftItem, c: Contribution, showAmount: real -> string,
                           showTime: Timestamp -> string): Row
  {
    map["item_name" := JStr(item.name), "contributor_name" := JStr(c.contributor_name),
        "amount" := JStr("RM " + showAmount(c.amount)), "timestamp" := JStr(showTime(c.timestamp))]
  }

  function ItemRows(item: GiftItem, showAmount: real -> string, showTime: Timestamp -> string): (rows: seq<Row>)
    ensures |rows| == |item.contributions|
  {
    seq(|item.contributions|, j requires 0 <= j < |item.contributions| =>
      ContributionRow(item, item.contributions[j], showAmount, showTime))
  }

  /** Number of contributions over the whole registry. */
  function ContributionCount(reg: Registry): nat
  {
    if |reg| == 0 then 0 else |reg[0].contributions| + ContributionCount(reg[1..])
  }

  /** Number of contributions held by the items before position `i`. */
  function Offset(reg: Registry, i: nat): nat
    requires i <= |reg|
  {
    if i == 0 then 0 else Offset(reg, i - 1) + |reg[i - 1].contributions|
  }

  /** The rows `exportContributions` builds: every item's contributions, in item
      order, then contribution order. */
  function AllContributionRows(reg: Registry, showAmount: real -> string, showTime: Timestamp -> string): (rows: seq<Row>)
    ensures |rows| == ContributionCount(reg)
  {
    if |reg| == 0 then [] else ItemRows(reg[0], showAmount, showTime) + AllContributionRows(reg[1..], showAmount, showTime)
  }

  /** `exportContributions`: the CSV text of every contribution. */
  function ExportContributions(reg: Registry, showAmount: real -> string, showTime: Timestamp -> string): (csv: string)
    ensures "Item_Name" + "," + "Contributor_Name" + "," + "Amount" + "," + "Timestamp" <= csv
    ensures ContributionCount(reg) > 0 ==> 43 < |csv| && csv[43] == '\n'
  {
    ContributionHeaderLine();
    ExportToCsv(AllContributionRows(reg, showAmount, showTime), ContributionHeaders)
  }

  lemma {:induction false} OffsetShift(reg: Registry, i: nat)
    requires 0 < |reg| && i < |reg|
    ensures Offset(reg, i + 1) == |reg[0].contributions| + Offset(reg[1..], i)
  {
    if i > 0 {
      OffsetShift(reg, i - 1);
      assert reg[1..][i - 1] == reg[i];
    }
  }

  lemma {:induction false} OffsetBound(reg: Registry, i: nat)
    requires i < |reg|
    ensures Offset(reg, i) + |reg[i].contributions| <= ContributionCount(reg)
  {
    if i == 0 {
      assert Offset(reg, 0) == 0;
    } else {
      OffsetShift(reg, i - 1);
      OffsetBound(reg[1..], i - 1);
    }
  }

  /** The first item's contributions come first. */
  lemma ContributionRowAtHead(reg: Registry, j: nat, showAmount: real -> string, showTime: Timestamp -> string)
    requires 0 < |reg| && j < |reg[0].contributions|
    ensures j < |AllContributionRows(reg, showAmount, showTime)|
    ensures AllContributionRows(reg, showAmount, showTime)[j]
         == ContributionRow(reg[0], reg[0].contributions[j], showAmount, showTime)
  {
    var head := ItemRows(reg[0], showAmount, showTime);
    var tail := AllContributionRows(reg[1..], showAmount, showTime);
    assert AllContributionRows(reg, showAmount, showTime) == head + tail;
    assert (head + tail)[j] == head[j];
  }

  /** After the first item's rows come the rows of the rest of the registry. */
  lemma ContributionRowInTail(reg: Registry, k: nat, showAmount: real -> string, showTime: Timestamp -> string)
    requires 0 < |reg| && k < ContributionCount(reg[1..])
    ensures |reg[0].contributions| + k < |AllContributionRows(reg, showAmount, showTime)|
    ensures AllContributionRows(reg, showAmount, showTime)[|reg[0].contributions| + k]
         == AllContributionRows(reg[1..], showAmount, showTime)[k]
  {
    var head := ItemRows(reg[0], showAmount, showTime);
    var tail := AllContributionRows(reg[1..], showAmount, showTime);
    assert AllContributionRows(reg, showAmount, showTime) == head + tail;
    assert (head + tail)[|head| + k] == tail[k];
  }

  lemma ContributionRowName(item: GiftItem, c: Contribution, showAmount: real -> string, showTime: Timestamp -> string)
    ensures ContributionRow(item, c, showAmount, showTime)["item_name"] == JStr(item.name)
  {
  }

  /** Row `Offset(reg, i) + j` of the export is contribution `j` of item `i`. */
  lemma {:induction false} ContributionRowIndex(reg: Registry, i: nat, j: nat,
                                                showAmount: real -> string, showTime: Timestamp -> string)
    requires i < |reg| && j < |reg[i].contributions|
    ensures Offset(reg, i) + j < ContributionCount(reg)
    ensures AllContributionRows(reg, showAmount, showTime)[Offset(reg, i) + j]
         == ContributionRow(reg[i], reg[i].contributions[j], showAmount, showTime)
  {
    OffsetBound(reg, i);
    if i == 0 {
      assert Offset(reg, 0) == 0;
      ContributionRowAtHead(reg, j, showAmount, showTime);
    } else {
      var rows := AllContributionRows(reg, showAmount, showTime);
      var rest := AllContributionRows(reg[1..], showAmount, showTime);
      var k := Offset(reg[1..], i - 1) + j;
      OffsetShift(reg, i - 1);
      assert Offset(reg, i) + j == |reg[0].contributions| + k;
      assert reg[1..][i - 1] == reg[i];
      ContributionRowIndex(reg[1..], i - 1, j, showAmount, showTime);
      assert rest[k] == ContributionRow(reg[i], reg[i].contributions[j], showAmount, showTime);
      ContributionRowInTail(reg, k, showAmount, showTime);
      assert rows[|reg[0].contributions| + k] == rest[k];
    }
  }

  /** Row `Offset(reg, i) + j` of the export is contribution `j` of item `i`,
      carrying that item's name. */
  lemma ContributionRowAt(reg: Registry, i: nat, j: nat,
                          showAmount: real -> string, showTime: Timestamp -> string)
    requires i < |reg| && j < |reg[i].contributions|
    ensures Offset(reg, i) + j < ContributionCount(reg)
    ensures AllContributionRows(reg, showAmount, showTime)[Offset(reg, i) + j]
         == ContributionRow(reg[i], reg[i].contributions[j], showAmount, showTime)
    ensures AllContributionRows(reg, showAmount, showTime)[Offset(reg, i) + j]["item_name"] == JStr(reg[i].name)
  {
    ContributionRowIndex(reg, i, j, showAmount, showTime);
    ContributionRowName(reg[i], reg[i].contributions[j], showAmount, showTime);
  }

  /** Every header of each export names, through `ColumnKey`, exactly one key
      its rows carry, so no column is left empty for want of a key. */
  lemma HeadersMatchRowKeys(r: Rsvp, item: GiftItem, c: Contribution,
                            showAmount: real -> string, showTime: Timestamp -> string)
    ensures (set h | h in RsvpHeaders :: ColumnKey(h)) == RsvpRow(r, showTime).Keys
    ensures (set h | h in ContributionHeaders :: ColumnKey(h))
         == ContributionRow(item, c, showAmount, showTime).Keys
  {
    RsvpKeys();
    ContributionKeys();
  }

  /** A guest count of zero is falsy, so it exports as an empty cell. */
  lemma ZeroPaxExportsEmpty(r: Rsvp, showTime: Timestamp -> string)
    requires r.pax == 0
    ensures Cell(RsvpRow(r, showTime), "Pax") == ""
  {
    RsvpKeys();
  }

  /** A positive guest count exports as its decimal digits. */
  lemma PositivePaxExportsDigits(r: Rsvp, showTime: Timestamp -> string)
    requires r.pax > 0
    ensures Cell(RsvpRow(r, showTime), "Pax") == NatText(r.pax)
  {
    RsvpKeys();
  }

  /** The four texts a contribution's exported line carries. */
  function ContributionTexts(item: GiftItem, c: Contribution, showAmount: real -> string,
                             showTime: Timestamp -> string): seq<string>
  {
    [item.name, c.contributor_name, "RM " + showAmount(c.amount), showTime(c.timestamp)]
  }

  /** Names and formatted values that hold no quote character. */
  predicate PlainRegistry(reg: Registry, showAmount: real -> string, showTime: Timestamp -> string)
  {
    forall i, j :: 0 <= i < |reg| && 0 <= j < |reg[i].contributions| ==>
      var texts := ContributionTexts(reg[i], reg[i].contributions[j], showAmount, showTime);
      Safe(texts[0]) && Safe(texts[1]) && Safe(texts[2]) && Safe(texts[3])
  }

  lemma ContributionCells(item: GiftItem, c: Contribution, showAmount: real -> string, showTime: Timestamp -> string)
    ensures Cells(ContributionRow(item, c, showAmount, showTime), ContributionHeaders)
         == ContributionTexts(item, c, showAmount, showTime)
  {
    ContributionKeys();
  }

  lemma PlainConcat(a: seq<Row>, b: seq<Row>, headers: seq<string>)
    requires Plain(a, headers) && Plain(b, headers)
    ensures Plain(a + b, headers)
  {
    forall k, i | 0 <= k < |a + b| && 0 <= i < |headers|
      ensures Safe(Cell((a + b)[k], headers[i]))
    {
      if k < |a| {
        assert (a + b)[k] == a[k];
      } else {
        assert (a + b)[k] == b[k - |a|];
      }
    }
  }

  lemma ContributionRowPlain(item: GiftItem, c: Contribution, showAmount: real -> string, showTime: Timestamp -> string)
    requires var texts := ContributionTexts(item, c, showAmount, showTime);
             Safe(texts[0]) && Safe(texts[1]) && Safe(texts[2]) && Safe(texts[3])
    ensures forall i :: 0 <= i < |ContributionHeaders| ==> Safe(Cell(ContributionRow(item, c, showAmount, showTime), ContributionHeaders[i]))
  {
    var row := ContributionRow(item, c, showAmount, showTime);
    ContributionCells(item, c, showAmount, showTime);
    forall i | 0 <= i < |ContributionHeaders| ensures Safe(Cell(row, ContributionHeaders[i])) {
      assert Cells(row, ContributionHeaders)[i] == Cell(row, ContributionHeaders[i]);
    }
  }

  lemma ItemRowsPlain(reg: Registry, showAmount: real -> string, showTime: Timestamp -> string)
    requires |reg| > 0
    requires PlainRegistry(reg, showAmount, showTime)
    ensures Plain(ItemRows(reg[0], showAmount, showTime), ContributionHeaders)
  {
    var head := ItemRows(reg[0], showAmount, showTime);
    forall k, i | 0 <= k < |head| && 0 <= i < |ContributionHeaders|
      ensures Safe(Cell(head[k], ContributionHeaders[i]))
    {
      ContributionRowPlain(reg[0], reg[0].contributions[k], showAmount, showTime);
      assert Safe(Cell(head[k], ContributionHeaders[i]));
    }
  }

  lemma PlainRegistryTail(reg: Registry, showAmount: real -> string, showTime: Timestamp -> string)
    requires |reg| > 0
    requires PlainRegistry(reg, showAmount, showTime)
    ensures PlainRegistry(reg[1..], showAmount, showTime)
  {
    forall i, j | 0 <= i < |reg[1..]| && 0 <= j < |reg[1..][i].contributions|
      ensures var texts := ContributionTexts(reg[1..][i], reg[1..][i].contributions[j], showAmount, showTime);
              Safe(texts[0]) && Safe(texts[1]) && Safe(texts[2]) && Safe(texts[3])
    {
      assert reg[1..][i] == reg[i + 1];
    }
  }

  lemma {:induction false} PlainRows(reg: Registry, showAmount: real -> string, showTime: Timestamp -> string)
    requires PlainRegistry(reg, showAmount, showTime)
    ensures Plain(AllContributionRows(reg, showAmount, showTime), ContributionHeaders)
  {
    if |reg| > 0 {
      ItemRowsPlain(reg, showAmount, showTime);
      PlainRegistryTail(reg, showAmount, showTime);
      PlainRows(reg[1..], showAmount, showTime);
      PlainConcat(ItemRows(reg[0], showAmount, showTime), AllContributionRows(reg[1..], showAmount, showTime),
                  ContributionHeaders);
    }
  }

  /** Record `Offset(reg, i) + j` holds the texts of contribution `j` of item `i`. */
  predicate LinesMatch(reg: Registry, lines: seq<seq<string>>, showAmount: real -> string, showTime: Timestamp -> string)
  {
    forall i, j :: 0 <= i < |reg| && 0 <= j < |reg[i].contributions| ==> LineMatches(reg, lines, i, j, showAmount, showTime)
  }

  predicate LineMatches(reg: Registry, lines: seq<seq<string>>, i: nat, j: nat,
                        showAmount: real -> string, showTime: Timestamp -> string)
    requires i < |reg| && j < |reg[i].contributions|
  {
    Offset(reg, i) + j < |lines| &&
    lines[Offset(reg, i) + j] == ContributionTexts(reg[i], reg[i].contributions[j], showAmount, showTime)
  }

  lemma ExpectedContributionRows(reg: Registry, showAmount: real -> string, showTime: Timestamp -> string)
    ensures LinesMatch(reg, Expected(AllContributionRows(reg, showAmount, showTime), ContributionHeaders).rows,
                       showAmount, showTime)
  {
    var rows := AllContributionRows(reg, showAmount, showTime);
    var lines := Expected(rows, ContributionHeaders).rows;
    forall i, j | 0 <= i < |reg| && 0 <= j < |reg[i].contributions|
      ensures LineMatches(reg, lines, i, j, showAmount, showTime)
    {
      var k := Offset(reg, i) + j;
      ContributionRowAt(reg, i, j, showAmount, showTime);
      assert lines[k] == Cells(rows[k], ContributionHeaders);
      ContributionCells(reg[i], reg[i].contributions[j], showAmount, showTime);
    }
  }

  /** The texts of every contribution, item by item, taken from the registry
      alone: what the contributions export is meant to carry. */
  function ContributionLines(reg: Registry, showAmount: real -> string, showTime: Timestamp -> string)
    : (lines: seq<seq<string>>)
    ensures |lines| == ContributionCount(reg)
  {
    if |reg| == 0 then []
    else
      seq(|reg[0].contributions|, j requires 0 <= j < |reg[0].contributions| =>
        ContributionTexts(reg[0], reg[0].contributions[j], showAmount, showTime))
      + ContributionLines(reg[1..], showAmount, showTime)
  }

  /** The cells of the exported rows are the contributions' texts. */
  lemma {:induction false} ContributionLinesAreCells(reg: Registry, showAmount: real -> string, showTime: Timestamp -> string)
    ensures Expected(AllContributionRows(reg, showAmount, showTime), ContributionHeaders).rows
         == ContributionLines(reg, showAmount, showTime)
  {
    if |reg| > 0 {
      var head := ItemRows(reg[0], showAmount, showTime);
      var tail := AllContributionRows(reg[1..], showAmount, showTime);
      ContributionLinesAreCells(reg[1..], showAmount, showTime);
      assert AllContributionRows(reg, showAmount, showTime) == head + tail;
      var lines := Expected(head + tail, ContributionHeaders).rows;
      var tailLines := Expected(tail, ContributionHeaders).rows;
      var want := ContributionLines(reg, showAmount, showTime);
      forall k | 0 <= k < |lines| ensures lines[k] == want[k] {
        if k < |head| {
          assert (head + tail)[k] == head[k];
          ContributionCells(reg[0], reg[0].contributions[k], showAmount, showTime);
        } else {
          assert (head + tail)[k] == tail[k - |head|];
          assert lines[k] == tailLines[k - |head|];
        }
      }
    }
  }

  /** Record `Offset(reg, i) + j` of the expected export is contribution `j` of
      item `i`: its item's name, then its contributor, amount and time. */
  lemma ContributionLinesAt(reg: Registry, showAmount: real -> string, showTime: Timestamp -> string)
    ensures LinesMatch(reg, ContributionLines(reg, showAmount, showTime), showAmount, showTime)
  {
    ContributionLinesAreCells(reg, showAmount, showTime);
    ExpectedContributionRows(reg, showAmount, showTime);
  }

  /** Reading the contributions export back gives the header and, record by
      record, the texts of every contribution in item order and then
      contribution order. */
  lemma ExportContributionsReadBack(reg: Registry, showAmount: real -> string, showTime: Timestamp -> string)
    requires PlainRegistry(reg, showAmount, showTime)
    ensures ReadCsv(ExportContributions(reg, showAmount, showTime))
         == Some(Table(ContributionHeaders, ContributionLines(reg, showAmount, showTime)))
  {
    var rows := AllContributionRows(reg, showAmount, showTime);
    var csv := ExportContributions(reg, showAmount, showTime);
    assert csv == ExportToCsv(rows, ContributionHeaders);
    PlainRows(reg, showAmount, showTime);
    ExportReadRoundTrip(rows, ContributionHeaders);
    ContributionLinesAreCells(reg, showAmount, showTime);
  }

  /** The four texts an RSVP's exported line carries; a zero guest count is empty. */
  function RsvpTexts(r: Rsvp, showTime: Timestamp -> string): seq<string>
  {
    [r.name, if r.pax == 0 then "" else IntText(r.pax), r.wishes, showTime(r.timestamp)]
  }

  lemma RsvpCells(r: Rsvp, showTime: Timestamp -> string)
    ensures Cells(RsvpRow(r, showTime), RsvpHeaders) == RsvpTexts(r, showTime)
  {
    RsvpKeys();
  }

  lemma IntTextSafe(n: int)
    ensures Safe(IntText(n))
  {
    var t := IntText(n);
    assert forall k :: 0 <= k < |t| ==> t[k] != '"';
  }

  lemma RsvpRowPlain(r: Rsvp, showTime: Timestamp -> string)
    requires Safe(r.name) && Safe(r.wishes) && Safe(showTime(r.timestamp))
    ensures forall i :: 0 <= i < |RsvpHeaders| ==> Safe(Cell(RsvpRow(r, showTime), RsvpHeaders[i]))
  {
    RsvpCells(r, showTime);
    IntTextSafe(r.pax);
    var cells := Cells(RsvpRow(r, showTime), RsvpHeaders);
    assert forall i :: 0 <= i < |RsvpHeaders| ==> cells[i] == Cell(RsvpRow(r, showTime), RsvpHeaders[i]);
    assert Safe(cells[0]) && Safe(cells[1]) && Safe(cells[2]) && Safe(cells[3]);
  }

  lemma PlainRsvpRows(rsvps: seq<Rsvp>, showTime: Timestamp -> string)
    requires forall k :: 0 <= k < |rsvps| ==>
      Safe(rsvps[k].name) && Safe(rsvps[k].wishes) && Safe(showTime(rsvps[k].timestamp))
    ensures Plain(RsvpRows(rsvps, showTime), RsvpHeaders)
  {
    var rows := RsvpRows(rsvps, showTime);
    forall k, i | 0 <= k < |rows| && 0 <= i < |RsvpHeaders|
      ensures Safe(Cell(rows[k], RsvpHeaders[i]))
    {
      RsvpRowPlain(rsvps[k], showTime);
    }
  }

  /** Reading the RSVP export back gives the header and, record by record in
      list order, each RSVP's name, guest count, wishes and time; wishes that
      span several lines come back whole. */
  lemma ExportRsvpsReadBack(rsvps: seq<Rsvp>, showTime: Timestamp -> string)
    requires forall k :: 0 <= k < |rsvps| ==>
      Safe(rsvps[k].name) && Safe(rsvps[k].wishes) && Safe(showTime(rsvps[k].timestamp))
    ensures ReadCsv(ExportRsvps(rsvps, showTime)) == Some(Table(RsvpHeaders,
      seq(|rsvps|, k requires 0 <= k < |rsvps| => RsvpTexts(rsvps[k], showTime))))
  {
    var rows := RsvpRows(rsvps, showTime);
    PlainRsvpRows(rsvps, showTime);
    ExportReadRoundTrip(rows, RsvpHeaders);
    var expected := seq(|rsvps|, k requires 0 <= k < |rsvps| => RsvpTexts(rsvps[k], showTime));
    forall k | 0 <= k < |rsvps|
      ensures Expected(rows, RsvpHeaders).rows[k] == expected[k]
    {
      RsvpCells(rsvps[k], showTime);
    }
    assert Expected(rows, RsvpHeaders).rows == expected;
    assert ExportRsvps(rsvps, showTime) == ExportToCsv(rows, RsvpHeaders);
  }
}

=== FILE: common.dfy ===
/** Small shared vocabulary: an optional value. */
module Common {

  datatype Option<+T> = None | Some(value: T)
}

=== FILE: countdown.dfy ===
/** The wedding countdown (frontend/src/components/Countdown.jsx): a
    millisecond difference split into days, hours, minutes and seconds. The
    arithmetic follows the source on exact reals — `/` is real division,
    `Math.floor` is `Floor`, and `%` is JavaScript's remainder, which keeps the
    sign of the dividend. The clock read and the one-second timer are left to
    the caller: the difference is an input. */
module Countdown {

  datatype TimeLeft = TimeLeft(days: int, hours: int, minutes: int, seconds: int)

  /** The state before the first tick. */
  const Initial := TimeLeft(0, 0, 0, 0)

  const MsPerSecond := 1000
  const MsPerMinute := 60_000
  const MsPerHour := 3_600_000
  const MsPerDay := 86_400_000

  /** `Math.floor`. */
  function Floor(x: real): (f: int)
    ensures f as real <= x < f as real + 1.0
  {
    x.Floor
  }

  /** JavaScript's `x % m`: the quotient is truncated towards zero. */
  function JsRem(x: real, m: real): real
    requires m != 0.0
  {
    var q := x / m;
    var t := if q >= 0.0 then q.Floor else -((-q).Floor);
    x - m * t as real
  }

  /** One run of `calculateTimeLeft` on the stored state. A difference that is
      not positive leaves the state as it was. */
  function CalculateTimeLeft(prev: TimeLeft, difference: int): (r: TimeLeft)
    ensures difference <= 0 ==> r == prev
    ensures difference > 0 ==> r.days == difference / MsPerDay
    ensures difference > 0 ==> 0 <= r.hours < 24 && 0 <= r.minutes < 60 && 0 <= r.seconds < 60
    ensures difference > 0 ==>
      r.days * 86400 + r.hours * 3600 + r.minutes * 60 + r.seconds == difference / MsPerSecond
  {
    if difference > 0 then
      var d := difference as real;
      var r := TimeLeft(
        Floor(d / (1000.0 * 60.0 * 60.0 * 24.0)),
        Floor(JsRem(d / (1000.0 * 60.0 * 60.0), 24.0)),
        Floor(JsRem(d / 1000.0 / 60.0, 60.0)),
        Floor(JsRem(d / 1000.0, 60.0)));
      IntegerTimeLeft(difference);
      r
    else prev
  }

  /** The same split on integers: whole units, each reduced modulo the next. */
  function Decompose(difference: nat): TimeLeft
  {
    TimeLeft(difference / MsPerDay,
             (difference / MsPerHour) % 24,
             (difference / MsPerMinute) % 60,
             (difference / MsPerSecond) % 60)
  }

  /** Dividing a natural number as a real and flooring is integer division. */
  lemma FloorDiv(n: nat, k: nat)
    requires k > 0
    ensures Floor(n as real / k as real) == n / k
  {
    var q, r := n / k, n % k;
    assert n == q * k + r;
    assert n as real / k as real == q as real + r as real / k as real;
    assert 0.0 <= r as real / k as real < 1.0;
  }

  /** Floor of `a / k` modulo `m`, taken with JavaScript's `%` on reals, is
      `(n / k) % m` on integers. */
  lemma FloorRem(n: nat, k: nat, m: nat)
    requires k > 0 && m > 0
    requires n / (k * m) == (n / k) / m
    ensures Floor(JsRem(n as real / k as real, m as real)) == (n / k) % m
  {
    var x := n as real / k as real;
    assert x / m as real == n as real / (k * m) as real;
    FloorDiv(n, k * m);
    FloorDiv(n, k);
    var t := n / (k * m);
    assert x >= 0.0;
    assert JsRem(x, m as real) == x - (m * t) as real;
    assert Floor(x - (m * t) as real) == Floor(x) - m * t;
  }

  lemma HoursFormula(difference: nat)
    ensures Floor(JsRem(difference as real / (1000.0 * 60.0 * 60.0), 24.0)) == (difference / MsPerHour) % 24
  {
    assert difference / (MsPerHour * 24) == (difference / MsPerHour) / 24;
    FloorRem(difference, MsPerHour, 24);
  }

  lemma MinutesFormula(difference: nat)
    ensures Floor(JsRem(difference as real / 1000.0 / 60.0, 60.0)) == (difference / MsPerMinute) % 60
  {
    assert difference as real / 1000.0 / 60.0 == difference as real / MsPerMinute as real;
    assert difference / (MsPerMinute * 60) == (difference / MsPerMinute) / 60;
    FloorRem(difference, MsPerMinute, 60);
  }

  lemma SecondsFormula(difference: nat)
    ensures Floor(JsRem(difference as real / 1000.0, 60.0)) == (difference / MsPerSecond) % 60
  {
    assert difference / (MsPerSecond * 60) == (difference / MsPerSecond) / 60;
    FloorRem(difference, MsPerSecond, 60);
  }

  /** `Decompose` keeps each field in range and adds back up to the whole seconds. */
  lemma DecomposeSums(difference: nat)
    ensures
      var t := Decompose(difference);
      && 0 <= t.hours < 24 && 0 <= t.minutes < 60 && 0 <= t.seconds < 60
      && t.days * 86400 + t.hours * 3600 + t.minutes * 60 + t.seconds == difference / MsPerSecond
  {
    var s := difference / MsPerSecond;
    assert difference / MsPerMinute == s / 60;
    assert difference / MsPerHour == s / 3600;
    assert difference / MsPerDay == s / 86400;
    SecondsSplit(s);
  }

  /** The real-valued formulas of the source agree with `Decompose`, whose
      fields are in range and add back up to the whole seconds. */
  lemma IntegerTimeLeft(difference: int)
    requires difference > 0
    ensures
      var d := difference as real;
      && Floor(d / (1000.0 * 60.0 * 60.0 * 24.0)) == Decompose(difference).days
      && Floor(JsRem(d / (1000.0 * 60.0 * 60.0), 24.0)) == Decompose(difference).hours
      && Floor(JsRem(d / 1000.0 / 60.0, 60.0)) == Decompose(difference).minutes
      && Floor(JsRem(d / 1000.0, 60.0)) == Decompose(difference).seconds
    ensures
      var t := Decompose(difference);
      && 0 <= t.hours < 24 && 0 <= t.minutes < 60 && 0 <= t.seconds < 60
      && t.days * 86400 + t.hours * 3600 + t.minutes * 60 + t.seconds == difference / MsPerSecond
  {
    FloorDiv(difference, MsPerDay);
    HoursFormula(difference);
    MinutesFormula(difference);
    SecondsFormula(difference);
    DecomposeSums(difference);
  }

  lemma SecondsSplit(s: nat)
    ensures (s / 86400) * 86400 + ((s / 3600) % 24) * 3600 + ((s / 60) % 60) * 60 + s % 60 == s
  {
    var m, sec := s / 60, s % 60;
    var h, mn := m / 60, m % 60;
    var d, hr := h / 24, h % 24;
    assert s == 60 * m + sec;
    assert m == 60 * h + mn;
    assert h == 24 * d + hr;
    assert s == 3600 * h + (60 * mn + sec);
    assert s / 3600 == h;
    assert s == 86400 * d + (3600 * hr + 60 * mn + sec);
    assert s / 86400 == d;
  }

  /** A run of ticks: the state after each difference in turn, starting from
      `prev` (`Initial` when the page has just loaded). */
  function Ticks(prev: TimeLeft, differences: seq<int>): TimeLeft
    decreases |differences|
  {
    if |differences| == 0 then prev
    else Ticks(CalculateTimeLeft(prev, differences[0]), differences[1..])
  }

  /** After the target has passed, the display freezes at the last positive
      reading, or stays at zero if there never was one. */
  lemma {:induction false} TicksFreezeAfterTarget(prev: TimeLeft, differences: seq<int>)
    requires forall k :: 0 <= k < |differences| ==> differences[k] <= 0
    ensures Ticks(prev, differences) == prev
    ensures Ticks(Initial, differences) == Initial
    decreases |differences|
  {
    if |differences| > 0 {
      TicksFreezeAfterTarget(CalculateTimeLeft(prev, differences[0]), differences[1..]);
    }
  }
}

=== FILE: csv.dfy ===
/** The admin dashboard's CSV serialiser (`exportToCSV`,
    frontend/src/pages/AdminPage.jsx): a header line, then one line per row in
    which every column is the row's value under a key derived from the header,
    wrapped in double quotes without escaping. A small reader of that shape,
    which keeps line breaks inside quoted fields as a CSV reader does, is defined
    beside it, and the two are proved to agree. */
module Csv {
  import opened Common
  import opened Text

  /** The values the export rows hold: strings, integers, or nothing. */
  datatype JsValue = JStr(s: string) | JInt(n: int) | JNull

  /** An export row: field name to value. A missing key reads as `undefined`. */
  type Row = map<string, JsValue>

  /** JavaScript truthiness of a row value. */
  predicate Truthy(v: JsValue)
  {
    match v
    case JStr(s) => s != ""
    case JInt(n) => n != 0
    case JNull => false
  }

  function Digit(d: nat): (c: char)
    requires d < 10
    ensures '0' <= c <= '9'
  {
    "0123456789"[d]
  }

  /** Decimal digits of a natural number. */
  function NatText(n: nat): (s: string)
    ensures |s| >= 1
    ensures forall k :: 0 <= k < |s| ==> '0' <= s[k] <= '9'
  {
    if n < 10 then [Digit(n)] else NatText(n / 10) + [Digit(n % 10)]
  }

  /** Decimal value of a digit string. */
  function DigitsValue(s: string): nat
    requires forall k :: 0 <= k < |s| ==> '0' <= s[k] <= '9'
  {
    if |s| == 0 then 0 else 10 * DigitsValue(s[..|s| - 1]) + (s[|s| - 1] as int - '0' as int)
  }

  lemma {:induction false} NatTextValue(n: nat)
    ensures DigitsValue(NatText(n)) == n
  {
    var s := NatText(n);
    if n >= 10 {
      NatTextValue(n / 10);
      assert s[..|s| - 1] == NatText(n / 10);
    }
    var d := n % 10;
    assert Digit(d) as int - '0' as int == d by {
      if d == 0 {} else if d == 1 {} else if d == 2 {} else if d == 3 {} else if d == 4 {}
      else if d == 5 {} else if d == 6 {} else if d == 7 {} else if d == 8 {} else {}
    }
  }

  /** `String(n)` for an integer of ordinary size. */
  function IntText(n: int): (s: string)
    ensures |s| >= 1
    ensures forall k :: 0 <= k < |s| ==> s[k] == '-' || '0' <= s[k] <= '9'
  {
    if n < 0 then "-" + NatText(-n) else NatText(n)
  }

  /** The text a template literal makes of a value. */
  function Show(v: JsValue): string
  {
    match v
    case JStr(s) => s
    case JInt(n) => IntText(n)
    case JNull => "null"
  }

  /** ASCII `toLowerCase` of one character. */
  function Lower(c: char): char
  {
    if 'A' <= c <= 'Z' then (c as int - 'A' as int + 'a' as int) as char else c
  }

  /** `header.toLowerCase().replace(/ /g, '_')`. */
  function ColumnKey(header: string): (key: string)
    ensures |key| == |header|
    ensures ' ' !in key
    ensures forall i :: 0 <= i < |key| ==> !('A' <= key[i] <= 'Z')
    ensures forall i :: 0 <= i < |header| ==>
      if header[i] == ' ' then key[i] == '_'
      else if 'A' <= header[i] <= 'Z' then key[i] as int == header[i] as int + 32
      else key[i] == header[i]
  {
    seq(|header|, i requires 0 <= i < |header| => if header[i] == ' ' then '_' else Lower(header[i]))
  }

  /** The text of one cell: `row[key] || ''`. */
  function Cell(row: Row, header: string): (text: string)
    ensures text != "" ==> ColumnKey(header) in row && Truthy(row[ColumnKey(header)])
    ensures ColumnKey(header) in row && Truthy(row[ColumnKey(header)]) ==> text == Show(row[ColumnKey(header)])
  {
    var key := ColumnKey(header);
    if key in row && Truthy(row[key]) then Show(row[key]) else ""
  }

  function Quote(v: string): string
  {
    "\"" + v + "\""
  }

  /** The cells of one row, in header order. */
  function Cells(row: Row, headers: seq<string>): (cells: seq<string>)
    ensures |cells| == |headers|
  {
    seq(|headers|, i requires 0 <= i < |headers| => Cell(row, headers[i]))
  }

  function QuoteAll(vs: seq<string>): (qs: seq<string>)
    ensures |qs| == |vs|
    ensures forall k :: 0 <= k < |vs| ==> qs[k] == Quote(vs[k])
  {
    seq(|vs|, k requires 0 <= k < |vs| => Quote(vs[k]))
  }

  function HeaderLine(headers: seq<string>): string
  {
    Join(headers, ",")
  }

  function DataLine(row: Row, headers: seq<string>): string
  {
    Join(QuoteAll(Cells(row, headers)), ",")
  }

  function DataLines(data: seq<Row>, headers: seq<string>): (lines: seq<string>)
    ensures |lines| == |data|
  {
    seq(|data|, k requires 0 <= k < |data| => DataLine(data[k], headers))
  }

  /** `exportToCSV` without the download: the CSV text. */
  function ExportToCsv(data: seq<Row>, headers: seq<string>): (csv: string)
    ensures HeaderLine(headers) <= csv
    ensures |data| > 0 ==> |HeaderLine(headers)| < |csv| && csv[|HeaderLine(headers)|] == '\n'
  {
    var lines := [HeaderLine(headers)] + DataLines(data, headers);
    assert lines == [lines[0]] + lines[1..];
    Join(lines, "\n")
  }

  //
  // A reader for the exported shape
  //

  /** One record of quoted fields read off the front of `text` (no quote inside
      a field; a line break inside one is kept): its fields, and the text after
      the line break that ends the record, or `None` when the text ends there. */
  function ReadRecord(text: string): (r: Option<(seq<string>, Option<string>)>)
    ensures r.Some? ==> |r.value.0| >= 1
    ensures r.Some? && r.value.1.Some? ==> |r.value.1.value| < |text|
    decreases |text|
  {
    if |text| == 0 || text[0] != '"' || '"' !in text[1..] then None
    else
      var body := text[1..];
      var close := IndexOf(body, '"');
      var field := body[..close];
      var rest := body[close + 1..];
      if rest == "" then Some(([field], None))
      else if rest[0] == '\n' then Some(([field], Some(rest[1..])))
      else if rest[0] != ',' then None
      else
        match ReadRecord(rest[1..])
        case None => None
        case Some((more, next)) => Some(([field] + more, next))
  }

  /** Records one after another until the text ends. */
  function ReadRecords(text: string): (r: Option<seq<seq<string>>>)
    ensures r.Some? ==> |r.value| >= 1
    decreases |text|
  {
    match ReadRecord(text)
    case None => None
    case Some((fields, None)) => Some([fields])
    case Some((fields, Some(next))) =>
      match ReadRecords(next)
      case None => None
      case Some(more) => Some([fields] + more)
  }

  datatype Table = Table(headers: seq<string>, rows: seq<seq<string>>)

  /** The header line (up to the first line break) split on `,`, then the
      records after it; a text without a line break is a header alone. */
  function ReadCsv(text: string): Option<Table>
  {
    if '\n' !in text then Some(Table(Split(text, ','), []))
    else
      var nl := IndexOf(text, '\n');
      match ReadRecords(text[nl + 1..])
      case None => None
      case Some(rows) => Some(Table(Split(text[..nl], ','), rows))
  }

  /** A cell text the export can carry: it holds no quote character. */
  predicate Safe(text: string)
  {
    '"' !in text
  }

  /** Headers the reader can split back, and cells without a quote character. */
  predicate Plain(data: seq<Row>, headers: seq<string>)
  {
    && (forall i :: 0 <= i < |headers| ==> ',' !in headers[i] && '\n' !in headers[i])
    && (forall k, i :: 0 <= k < |data| && 0 <= i < |headers| ==> Safe(Cell(data[k], headers[i])))
  }

  /** The table the export is meant to carry: the headers, then each row's cells. */
  function Expected(data: seq<Row>, headers: seq<string>): Table
  {
    Table(headers, seq(|data|, k requires 0 <= k < |data| => Cells(data[k], headers)))
  }

  /** What follows a record: the end of the text, or a line break and more. */
  function Terminator(next: Option<string>): string
  {
    match next
    case None => ""
    case Some(t) => "\n" + t
  }

  /** One quoted field read off the front of a record. */
  lemma ReadRecordStep(v: string, tail: string)
    requires Safe(v)
    requires tail == "" || tail[0] == ',' || tail[0] == '\n'
    ensures ReadRecord(Quote(v) + tail) ==
      if tail == "" then Some(([v], None))
      else if tail[0] == '\n' then Some(([v], Some(tail[1..])))
      else match ReadRecord(tail[1..])
        case None => None
        case Some((more, next)) => Some(([v] + more, next))
  {
    var text := Quote(v) + tail;
    var body := text[1..];
    assert body == v + ['"'] + tail;
    IndexOfAfterPrefix(v, '"', tail);
    assert body[..|v|] == v;
    assert body[|v| + 1..] == tail;
  }

  lemma JoinQuotedCons(vs: seq<string>)
    requires |vs| >= 2
    ensures Join(QuoteAll(vs), ",") == Quote(vs[0]) + ("," + Join(QuoteAll(vs[1..]), ","))
  {
    assert QuoteAll(vs)[1..] == QuoteAll(vs[1..]);
  }

  /** A record of quoted, comma-joined values reads back as exactly those values,
      and the reader resumes after the line break that ends it. */
  lemma {:induction false} ReadRecordJoin(vs: seq<string>, next: Option<string>)
    requires |vs| >= 1
    requires forall k :: 0 <= k < |vs| ==> Safe(vs[k])
    ensures ReadRecord(Join(QuoteAll(vs), ",") + Terminator(next)) == Some((vs, next))
  {
    var end := Terminator(next);
    if |vs| == 1 {
      assert Join(QuoteAll(vs), ",") == Quote(vs[0]);
      ReadRecordStep(vs[0], end);
      assert next.Some? ==> end[1..] == next.value;
      assert vs == [vs[0]];
    } else {
      var rest := Join(QuoteAll(vs[1..]), ",") + end;
      JoinQuotedCons(vs);
      assert Join(QuoteAll(vs), ",") + end == Quote(vs[0]) + ("," + rest);
      ReadRecordStep(vs[0], "," + rest);
      assert ("," + rest)[1..] == rest;
      ReadRecordJoin(vs[1..], next);
      assert vs == [vs[0]] + vs[1..];
    }
  }

  /** The lines that quote and comma-join each cell row. */
  function Records(rows: seq<seq<string>>): (lines: seq<string>)
    ensures |lines| == |rows|
  {
    seq(|rows|, k requires 0 <= k < |rows| => Join(QuoteAll(rows[k]), ","))
  }

  predicate SafeCells(cells: seq<string>)
  {
    |cells| >= 1 && forall i :: 0 <= i < |cells| ==> Safe(cells[i])
  }

  lemma RecordsCons(rows: seq<seq<string>>)
    requires |rows| >= 1
    ensures Records(rows)[0] == Join(QuoteAll(rows[0]), ",")
    ensures Records(rows)[1..] == Records(rows[1..])
  {
  }

  /** A record ended by a line break is followed by the records of the rest. */
  lemma ReadRecordsStep(line: string, fields: seq<string>, more: string)
    requires ReadRecord(line + Terminator(Some(more))) == Some((fields, Some(more)))
    ensures ReadRecords(line + "\n" + more) ==
      match ReadRecords(more)
      case None => None
      case Some(rest) => Some([fields] + rest)
  {
    assert line + "\n" + more == line + Terminator(Some(more));
  }

  lemma ReadLastRecord(rows: seq<seq<string>>)
    requires |rows| == 1 && SafeCells(rows[0])
    ensures ReadRecords(Join(Records(rows), "\n")) == Some(rows)
  {
    RecordsCons(rows);
    assert Join(Records(rows), "\n") == Records(rows)[0] + Terminator(None);
    ReadRecordJoin(rows[0], None);
    assert rows == [rows[0]];
  }

  lemma ReadFirstRecord(rows: seq<seq<string>>)
    requires |rows| >= 2 && SafeCells(rows[0])
    ensures ReadRecords(Join(Records(rows), "\n")) ==
      match ReadRecords(Join(Records(rows[1..]), "\n"))
      case None => None
      case Some(rest) => Some([rows[0]] + rest)
  {
    var lines := Records(rows);
    RecordsCons(rows);
    var more := Join(lines[1..], "\n");
    assert Join(lines, "\n") == lines[0] + "\n" + more;
    ReadRecordJoin(rows[0], Some(more));
    ReadRecordsStep(lines[0], rows[0], more);
  }

  /** Cell rows written as records and joined with line breaks read back as those rows. */
  lemma {:induction false} ReadRecordsJoin(rows: seq<seq<string>>)
    requires |rows| >= 1
    requires forall k :: 0 <= k < |rows| ==> SafeCells(rows[k])
    ensures ReadRecords(Join(Records(rows), "\n")) == Some(rows)
  {
    assert SafeCells(rows[0]);
    if |rows| == 1 {
      ReadLastRecord(rows);
    } else {
      ReadFirstRecord(rows);
      assert forall k :: 0 <= k < |rows[1..]| ==> rows[1..][k] == rows[k + 1];
      ReadRecordsJoin(rows[1..]);
      assert rows == [rows[0]] + rows[1..];
    }
  }

  /** A header line, a line break, then records. */
  lemma ReadCsvAfterHeader(head: string, body: string)
    requires '\n' !in head
    ensures ReadCsv(head + "\n" + body) ==
      match ReadRecords(body)
      case None => None
      case Some(rows) => Some(Table(Split(head, ','), rows))
  {
    var text := head + "\n" + body;
    IndexOfAfterPrefix(head, '\n', body);
    assert text[..|head|] == head;
    assert text[|head| + 1..] == body;
  }

  /** The export's data lines are the records of the expected cell rows. */
  lemma DataLinesAreRecords(data: seq<Row>, headers: seq<string>)
    ensures DataLines(data, headers) == Records(Expected(data, headers).rows)
  {
  }

  lemma LineFree(row: Row, headers: seq<string>)
    requires forall i :: 0 <= i < |headers| ==> '\n' !in Cell(row, headers[i])
    ensures '\n' !in DataLine(row, headers)
  {
    var qs := QuoteAll(Cells(row, headers));
    forall k | 0 <= k < |qs| ensures '\n' !in qs[k] {
      assert qs[k] == "\"" + Cell(row, headers[k]) + "\"";
    }
    JoinAvoids(qs, ",", '\n');
  }

  /** Without line breaks in cells the export has exactly one line per row after
      the header line. */
  lemma ExportLineCount(data: seq<Row>, headers: seq<string>)
    requires forall i :: 0 <= i < |headers| ==> '\n' !in headers[i]
    requires forall k, i :: 0 <= k < |data| && 0 <= i < |headers| ==> '\n' !in Cell(data[k], headers[i])
    ensures |Split(ExportToCsv(data, headers), '\n')| == 1 + |data|
  {
    var lines := [HeaderLine(headers)] + DataLines(data, headers);
    JoinAvoids(headers, ",", '\n');
    forall k | 0 <= k < |lines| ensures '\n' !in lines[k] {
      if k > 0 {
        LineFree(data[k - 1], headers);
      }
    }
    SplitJoin(lines, '\n');
  }

  /** The reader recovers from the export exactly the headers and, per row in
      data order, the cell texts in header order — line breaks inside cells
      included. When no cell holds a line break, each row is one line. */
  lemma ExportReadRoundTrip(data: seq<Row>, headers: seq<string>)
    requires |headers| >= 1
    requires Plain(data, headers)
    ensures ReadCsv(ExportToCsv(data, headers)) == Some(Expected(data, headers))
    ensures (forall k, i :: 0 <= k < |data| && 0 <= i < |headers| ==> '\n' !in Cell(data[k], headers[i]))
        ==> |Split(ExportToCsv(data, headers), '\n')| == 1 + |data|
  {
    var head := HeaderLine(headers);
    JoinAvoids(headers, ",", '\n');
    SplitJoin(headers, ',');
    var csv := ExportToCsv(data, headers);
    if |data| == 0 {
      assert csv == head;
      assert Expected(data, headers).rows == [];
    } else {
      var rows := Expected(data, headers).rows;
      var lines := [head] + DataLines(data, headers);
      var body := Join(DataLines(data, headers), "\n");
      assert lines[1..] == DataLines(data, headers);
      assert csv == head + "\n" + body;
      ReadCsvAfterHeader(head, body);
      forall k | 0 <= k < |rows| ensures SafeCells(rows[k]) {
        assert forall i :: 0 <= i < |headers| ==> rows[k][i] == Cell(data[k], headers[i]);
      }
      DataLinesAreRecords(data, headers);
      ReadRecordsJoin(rows);
    }
    if forall k, i :: 0 <= k < |data| && 0 <= i < |headers| ==> '\n' !in Cell(data[k], headers[i]) {
      ExportLineCount(data, headers);
    }
  }
}

=== FILE: ledger.dfy ===
/** The backend of the wedding site: the RSVP list and the gift-registry ledger
    (backend/server.py). Each handler is one sequential step from the stored
    collections to a response and the new collections; the clock and the uuid
    generator are parameters. */
module Ledger {
  import opened Common

  /** A creation time, as the clock reports it. */
  type Timestamp = int

  datatype Contribution = Contribution(contributor_name: string, amount: real, timestamp: Timestamp)

  /** A gift item. `contributed` is the running total raised towards `total`. */
  datatype GiftItem = GiftItem(
    id: string,
    name: string,
    link: string,
    total: real,
    contributed: real,
    contributions: seq<Contribution>)

  /** The `registry` collection, in storage order. */
  type Registry = seq<GiftItem>

  /** Body of `POST /registry/contribute`. */
  datatype ContributionCreate = ContributionCreate(item_id: string, contributor_name: string, amount: real)

  /** Body of `POST /rsvp`. */
  datatype RsvpCreate = RsvpCreate(name: string, pax: int, wishes: string)

  datatype Rsvp = Rsvp(id: string, name: string, pax: int, wishes: string, timestamp: Timestamp)

  /** An `HTTPException` raised by a handler. */
  datatype HttpError = HttpError(status: int, detail: string)

  datatype Result<+T> = Ok(value: T) | Err(error: HttpError)

  /** A successful contribution: the registry after it and the `new_total` reported. */
  datatype Contributed = Contributed(registry: Registry, new_total: real)

  const ItemNotFound := HttpError(404, "Item not found")
  const ExceedsTotal := HttpError(400, "Contribution exceeds item total")

  /** Sum of the amounts of a contribution list. */
  function Sum(cs: seq<Contribution>): real
  {
    if |cs| == 0 then 0.0 else cs[0].amount + Sum(cs[1..])
  }

  /** What every stored item keeps: `contributed` is the sum of its contributions
      and does not exceed `total`. */
  predicate ItemInvariant(item: GiftItem)
  {
    item.contributed == Sum(item.contributions) && item.contributed <= item.total
  }

  predicate RegistryInvariant(reg: Registry)
  {
    forall i :: 0 <= i < |reg| ==> ItemInvariant(reg[i])
  }

  predicate DistinctIds(reg: Registry)
  {
    forall i, j :: 0 <= i < j < |reg| ==> reg[i].id != reg[j].id
  }

  predicate HasId(reg: Registry, id: string)
  {
    exists i :: 0 <= i < |reg| && reg[i].id == id
  }

  /** `find_one({"id": id})`: the position of the first item with that id. */
  function FindItem(reg: Registry, id: string): (r: Option<nat>)
    ensures r.None? <==> !HasId(reg, id)
    ensures r.Some? ==> r.value < |reg| && reg[r.value].id == id
    ensures r.Some? ==> forall j :: 0 <= j < r.value ==> reg[j].id != id
  {
    if |reg| == 0 then None
    else if reg[0].id == id then Some(0)
    else
      match FindItem(reg[1..], id)
      case None =>
        assert forall i :: 1 <= i < |reg| ==> reg[i] == reg[1..][i - 1];
        None
      case Some(k) => Some(k + 1)
  }

  /** The item with one more contribution and `contributed` moved on. */
  function Credit(item: GiftItem, c: Contribution, newContributed: real): GiftItem
  {
    item.(contributed := newContributed, contributions := item.contributions + [c])
  }

  /** `POST /registry/contribute`: look the item up, refuse a contribution that
      would take `contributed` above `total`, otherwise record it. The amount's
      sign is not checked here. */
  function AddContribution(reg: Registry, input: ContributionCreate, now: Timestamp): (r: Result<Contributed>)
    ensures !HasId(reg, input.item_id) <==> r == Err(ItemNotFound)
    ensures r.Err? ==> r.error == ItemNotFound || r.error == ExceedsTotal
    ensures r.Ok? <==> HasId(reg, input.item_id)
                       && reg[FindItem(reg, input.item_id).value].contributed + input.amount
                          <= reg[FindItem(reg, input.item_id).value].total
    ensures r.Ok? ==>
      var i := FindItem(reg, input.item_id).value;
      && |r.value.registry| == |reg|
      && r.value.new_total == reg[i].contributed + input.amount
      && r.value.registry[i].contributed == r.value.new_total
      && r.value.registry[i].contributions
         == reg[i].contributions + [Contribution(input.contributor_name, input.amount, now)]
      && r.value.registry[i].id == reg[i].id
      && r.value.registry[i].name == reg[i].name
      && r.value.registry[i].link == reg[i].link
      && r.value.registry[i].total == reg[i].total
      && (forall j :: 0 <= j < |reg| && j != i ==> r.value.registry[j] == reg[j])
  {
    match FindItem(reg, input.item_id)
    case None => Err(ItemNotFound)
    case Some(i) =>
      var item := reg[i];
      var newContributed := item.contributed + input.amount;
      if newContributed > item.total then Err(ExceedsTotal)
      else
        var c := Contribution(input.contributor_name, input.amount, now);
        Ok(Contributed(reg[i := Credit(item, c, newContributed)], newContributed))
  }

  /** `POST /rsvp`: store a new record with a fresh id and the current time.
      Nothing is validated and nothing is deduplicated. */
  function CreateRsvp(rsvps: seq<Rsvp>, input: RsvpCreate, freshId: string, now: Timestamp): (r: (seq<Rsvp>, Rsvp))
    ensures r.0 == rsvps + [r.1]
    ensures r.1.id == freshId && r.1.timestamp == now
    ensures r.1.name == input.name && r.1.pax == input.pax && r.1.wishes == input.wishes
  {
    var record := Rsvp(freshId, input.name, input.pax, input.wishes, now);
    (rsvps + [record], record)
  }

  //
  // Properties of the ledger transition
  //

  lemma {:induction false} SumAppend(cs: seq<Contribution>, c: Contribution)
    ensures Sum(cs + [c]) == Sum(cs) + c.amount
  {
    if |cs| > 0 {
      assert (cs + [c])[1..] == cs[1..] + [c];
      SumAppend(cs[1..], c);
    } else {
      assert (cs + [c])[1..] == [];
    }
  }

  /** Every successful contribution keeps `contributed == Sum(contributions)`
      and `contributed <= total` for every item. */
  lemma AddContributionPreservesInvariant(reg: Registry, input: ContributionCreate, now: Timestamp)
    requires RegistryInvariant(reg)
    ensures AddContribution(reg, input, now).Ok? ==> RegistryInvariant(AddContribution(reg, input, now).value.registry)
  {
    var r := AddContribution(reg, input, now);
    if r.Ok? {
      var i := FindItem(reg, input.item_id).value;
      SumAppend(reg[i].contributions, Contribution(input.contributor_name, input.amount, now));
      assert ItemInvariant(r.value.registry[i]);
    }
  }

  /** What serving contribution requests never changes about an item: its id,
      name, link and total; and its old contributions stay a prefix of its new ones. */
  predicate Kept(before: GiftItem, after: GiftItem)
  {
    && after.id == before.id && after.name == before.name && after.link == before.link
    && after.total == before.total && before.contributions <= after.contributions
  }

  /** The ledger after a request: on success the item found gets the amount and
      one more contribution and nothing else changes; a refused request leaves
      it as it was. */
  function Apply(reg: Registry, input: ContributionCreate, now: Timestamp): (r: Registry)
    ensures |r| == |reg|
    ensures AddContribution(reg, input, now).Ok? ==>
      var i := FindItem(reg, input.item_id).value;
      && r[i].contributed == reg[i].contributed + input.amount
      && r[i].contributions == reg[i].contributions + [Contribution(input.contributor_name, input.amount, now)]
      && r == reg[i := r[i]]
    ensures AddContribution(reg, input, now).Err? ==> r == reg
    ensures !HasId(reg, input.item_id) ==> r == reg
    ensures forall i :: 0 <= i < |reg| ==> Kept(reg[i], r[i])
  {
    match AddContribution(reg, input, now)
    case Ok(done) => done.registry
    case Err(_) => reg
  }

  /** Contribution requests served one after another, each with its own time. */
  function Replay(reg: Registry, requests: seq<(ContributionCreate, Timestamp)>): (r: Registry)
    ensures |r| == |reg|
    ensures forall i :: 0 <= i < |reg| ==> Kept(reg[i], r[i])
    decreases |requests|
  {
    if |requests| == 0 then reg
    else Replay(Apply(reg, requests[0].0, requests[0].1), requests[1..])
  }

  /** After any sequence of requests, successful or not, every item still has
      `contributed == Sum(contributions) <= total`. */
  lemma {:induction false} ReplayPreservesInvariant(reg: Registry, requests: seq<(ContributionCreate, Timestamp)>)
    requires RegistryInvariant(reg)
    ensures RegistryInvariant(Replay(reg, requests))
    decreases |requests|
  {
    if |requests| > 0 {
      AddContributionPreservesInvariant(reg, requests[0].0, requests[0].1);
      ReplayPreservesInvariant(Apply(reg, requests[0].0, requests[0].1), requests[1..]);
    }
  }

  /** Item ids never change, so distinct ids stay distinct. */
  lemma ReplayKeepsDistinctIds(reg: Registry, requests: seq<(ContributionCreate, Timestamp)>)
    requires DistinctIds(reg)
    ensures DistinctIds(Replay(reg, requests))
  {
  }

  //
  // Properties of RSVP creation
  //

  function CountNamed(rsvps: seq<Rsvp>, name: string): (n: nat)
    ensures n <= |rsvps|
  {
    if |rsvps| == 0 then 0
    else (if rsvps[|rsvps| - 1].name == name then 1 else 0) + CountNamed(rsvps[..|rsvps| - 1], name)
  }

  /** No deduplication: a repeated submission under the same name adds one more
      record with that name. */
  lemma CreateRsvpNoDedup(rsvps: seq<Rsvp>, input: RsvpCreate, freshId: string, now: Timestamp)
    ensures CountNamed(CreateRsvp(rsvps, input, freshId, now).0, input.name) == CountNamed(rsvps, input.name) + 1
  {
    var after := CreateRsvp(rsvps, input, freshId, now).0;
    assert after[..|after| - 1] == rsvps;
  }

  predicate DistinctRsvpIds(rsvps: seq<Rsvp>)
  {
    forall i, j :: 0 <= i < j < |rsvps| ==> rsvps[i].id != rsvps[j].id
  }

  /** With an id no stored record has, record ids stay pairwise distinct. */
  lemma CreateRsvpFreshId(rsvps: seq<Rsvp>, input: RsvpCreate, freshId: string, now: Timestamp)
    requires DistinctRsvpIds(rsvps)
    requires forall i :: 0 <= i < |rsvps| ==> rsvps[i].id != freshId
    ensures DistinctRsvpIds(CreateRsvp(rsvps, input, freshId, now).0)
  {
  }
}

=== FILE: registry_page.dfy ===
/** The guest-facing registry page (frontend/src/pages/Registry.jsx): the
    JavaScript submit handlers that run before anything is posted, and the
    values shown on each item card. The browser's own form validation, which
    runs before a handler is called, is not part of this model. `parseFloat`
    and `parseInt` are not modelled as string parsers: their results are
    inputs. */
module RegistryPage {
  import opened Common
  import opened Ledger

  /** What `parseFloat` (over `real`) or `parseInt` (over `int`) returns: a
      number or NaN. */
  datatype Parsed<+T> = Num(value: T) | NaN

  /** The contribution form as typed: both fields are text. */
  datatype ContributionForm = ContributionForm(contributor_name: string, amount: string)

  /** The RSVP form as typed. */
  datatype RsvpForm = RsvpForm(name: string, pax: string, wishes: string)

  /** The body the page posts to `/registry/contribute`. */
  datatype ContributionBody = ContributionBody(item_id: string, contributor_name: string, amount: Parsed<real>)

  /** The body the page posts to `/rsvp`. */
  datatype RsvpBody = RsvpBody(name: string, pax: Parsed<int>, wishes: string)

  /** What a submit handler does: show an error toast and stop, or post a body. */
  datatype Submission<+T> = Rejected(message: string) | Posted(body: T)

  const FillAllFields := "Please fill in all fields"
  const AmountNotPositive := "Amount must be greater than 0"
  const FillRequiredFields := "Please fill in all required fields"

  /** `handleContribute` for the selected item; `parsed` is `parseFloat(form.amount)`.
      NaN is not `<= 0`, so the handler lets it through to the request (the
      browser's `type="number"` field does not let non-numeric text reach it). */
  function HandleContribute(itemId: string, form: ContributionForm, parsed: Parsed<real>): (r: Submission<ContributionBody>)
    ensures (form.contributor_name == "" || form.amount == "") ==> r == Rejected(FillAllFields)
    ensures r.Posted? <==>
      form.contributor_name != "" && form.amount != "" && !(parsed.Num? && parsed.value <= 0.0)
    ensures r == Rejected(AmountNotPositive) <==>
      form.contributor_name != "" && form.amount != "" && parsed.Num? && parsed.value <= 0.0
    ensures r.Posted? ==> r.body == ContributionBody(itemId, form.contributor_name, parsed)
    ensures r.Posted? && r.body.amount.Num? ==> r.body.amount.value > 0.0
  {
    if form.contributor_name == "" || form.amount == "" then Rejected(FillAllFields)
    else if parsed.Num? && parsed.value <= 0.0 then Rejected(AmountNotPositive)
    else Posted(ContributionBody(itemId, form.contributor_name, parsed))
  }

  /** `handleRsvpSubmit`; `parsed` is `parseInt(form.pax)`. The handler checks
      only emptiness, so the text "0" passes it. The same handler appears on the
      home page, whose form is the one guests use. */
  function HandleRsvpSubmit(form: RsvpForm, parsed: Parsed<int>): (r: Submission<RsvpBody>)
    ensures r.Rejected? <==> form.name == "" || form.pax == ""
    ensures r.Rejected? ==> r.message == FillRequiredFields
    ensures r.Posted? ==> r.body == RsvpBody(form.name, parsed, form.wishes)
  {
    if form.name == "" || form.pax == "" then Rejected(FillRequiredFields)
    else Posted(RsvpBody(form.name, parsed, form.wishes))
  }

  /** `getRemainingAmount`. */
  function RemainingAmount(item: GiftItem): (r: real)
    ensures item.contributed + r == item.total
    ensures r > 0.0 <==> !IsPurchased(item)
  {
    item.total - item.contributed
  }

  /** `getProgressPercentage`; `None` stands for the non-finite result of a zero `total`. */
  function ProgressPercentage(item: GiftItem): (r: Option<real>)
    ensures r.Some? <==> item.total != 0.0
    ensures r.Some? ==> r.value * item.total == item.contributed * 100.0
    ensures r.Some? && item.total > 0.0 ==> (r.value == 100.0 <==> item.contributed == item.total)
    ensures r.Some? && item.total > 0.0 && 0.0 <= item.contributed <= item.total ==> 0.0 <= r.value <= 100.0
  {
    if item.total == 0.0 then None else Some(item.contributed / item.total * 100.0)
  }

  /** `isPurchased`: the target has been reached. With a positive target that
      is exactly when the progress bar is full. */
  function IsPurchased(item: GiftItem): (b: bool)
    ensures item.total > 0.0 ==> (b <==> ProgressPercentage(item).value >= 100.0)
  {
    item.contributed >= item.total
  }

  /** What one item card shows. */
  datatype Card = Card(
    purchasedBadge: bool,
    progress: Option<real>,
    remainingText: Option<real>,
    contributeButton: bool)

  /** One card of the grid: the badge, the bar, and — only while the item is not
      purchased — the remaining amount and the Contribute button. */
  function ItemCard(item: GiftItem): (card: Card)
    ensures card.purchasedBadge <==> !card.contributeButton
    ensures card.remainingText.Some? <==> card.contributeButton
    ensures card.remainingText.Some? ==> card.remainingText.value > 0.0
    ensures card.remainingText.Some? ==> item.contributed + card.remainingText.value == item.total
    ensures card.contributeButton <==> item.contributed < item.total
    ensures card.progress.Some? <==> item.total != 0.0
    ensures card.progress.Some? ==> card.progress.value * item.total == item.contributed * 100.0
  {
    var purchased := IsPurchased(item);
    Card(purchased,
         ProgressPercentage(item),
         if purchased then None else Some(RemainingAmount(item)),
         !purchased)
  }

  /** Client guard and server together: a contribution that passes the page's
      guard with a numeric amount and is accepted by the server strictly raises
      the item's `contributed`. */
  lemma GuardedContributionRaisesTotal(reg: Registry, itemId: string, form: ContributionForm, a: real, now: Timestamp)
    requires HandleContribute(itemId, form, Num(a)).Posted?
    ensures
      var r := AddContribution(reg, ContributionCreate(itemId, form.contributor_name, a), now);
      r.Ok? ==> r.value.new_total > reg[FindItem(reg, itemId).value].contributed
  {
  }

  /** Once the Contribute button is hidden, the server refuses every positive
      amount for that item with 400, provided the item is the one its id finds. */
  lemma PurchasedItemRefusesMore(reg: Registry, input: ContributionCreate, now: Timestamp)
    requires FindItem(reg, input.item_id).Some?
    requires !ItemCard(reg[FindItem(reg, input.item_id).value]).contributeButton
    requires input.amount > 0.0
    ensures AddContribution(reg, input, now) == Err(ExceedsTotal)
  {
  }

  /** Neither the submit handler nor the server checks the guest count: the
      text "0" passes the handler and the server stores a record with no
      guests. (The browser's `min="1"` on the home page's field stops it
      first.) */
  lemma ZeroPaxGetsThrough(rsvps: seq<Rsvp>, freshId: string, now: Timestamp)
    ensures HandleRsvpSubmit(RsvpForm("Ana", "0", ""), Num(0)) == Posted(RsvpBody("Ana", Num(0), ""))
    ensures CreateRsvp(rsvps, RsvpCreate("Ana", 0, ""), freshId, now).1.pax == 0
  {
  }
}

=== FILE: seed.dfy ===
/** The registry seed script (backend/init_registry.py): it empties the
    registry collection and inserts four fixed gift items. */
module Seed {
  import opened Common
  import opened Ledger

  const ShopLink := "https://shopee.com.my"

  const SeedItems: Registry := [
    GiftItem("plates", "Plates", ShopLink, 100.0, 0.0, []),
    GiftItem("carpet", "Carpet", ShopLink, 200.0, 0.0, []),
    GiftItem("electric-grinder", "Electric Grinder", ShopLink, 2000.0, 0.0, []),
    GiftItem("bicycle", "Bicycle", ShopLink, 1000.0, 0.0, [])
  ]

  /** `delete_many({})` then `insert_many(items)`: whatever was stored before is
      gone and the seed list is the whole registry. */
  function InitRegistry(existing: Registry): (r: Registry)
    ensures r == SeedItems && |r| == 4
    ensures DistinctIds(r)
    ensures forall i :: 0 <= i < |r| ==> r[i].contributed == 0.0 && r[i].contributions == []
    ensures forall i :: 0 <= i < |r| ==> r[i].total > 0.0
    ensures RegistryInvariant(r)
  {
    var cleared: Registry := existing[..0];
    cleared + SeedItems
  }

  /** Two contributions of 10 and 15 to the freshly seeded Plates (total 100)
      both land: `contributed` ends at 25. */
  lemma TwoContributionsToPlates(existing: Registry, t1: Timestamp, t2: Timestamp)
    ensures
      var reg0 := InitRegistry(existing);
      var reg2 := Replay(reg0, [(ContributionCreate("plates", "A", 10.0), t1),
                                (ContributionCreate("plates", "B", 15.0), t2)]);
      reg2[0].contributed == 25.0 && |reg2[0].contributions| == 2
  {
    var reg0 := InitRegistry(existing);
    var requests := [(ContributionCreate("plates", "A", 10.0), t1),
                     (ContributionCreate("plates", "B", 15.0), t2)];
    assert FindItem(reg0, "plates") == Some(0);
    var reg1 := Apply(reg0, requests[0].0, requests[0].1);
    assert reg1[0].contributed == 10.0 && |reg1[0].contributions| == 1;
    assert FindItem(reg1, "plates") == Some(0);
    var reg2 := Apply(reg1, requests[1].0, requests[1].1);
    assert reg2[0].contributed == 25.0 && |reg2[0].contributions| == 2;
    assert Replay(reg0, requests) == Replay(reg1, requests[1..]);
    assert Replay(reg1, requests[1..]) == Replay(reg2, requests[2..]);
  }

  /** The backend checks the cap but not the sign: a negative amount to a seeded
      item is accepted and lowers `contributed`. */
  lemma NegativeAmountAccepted(existing: Registry, now: Timestamp)
    ensures
      var r := AddContribution(InitRegistry(existing), ContributionCreate("carpet", "X", -5.0), now);
      r.Ok? && r.value.new_total == -5.0
  {
    var reg := InitRegistry(existing);
    assert reg[0].id != "carpet";
    assert FindItem(reg[1..], "carpet") == Some(0);
  }

  /** Contributing more than an item's total is refused with 400. */
  lemma OverContributionRefused(existing: Registry, now: Timestamp)
    ensures AddContribution(InitRegistry(existing), ContributionCreate("plates", "X", 100.5), now) == Err(ExceedsTotal)
  {
  }
}

=== FILE: text.dfy ===
/** String helpers with JavaScript's meaning: `join`, `split` on one character,
    `endsWith`, and the first position of a character. */
module Text {

  /** `parts.join(sep)`: the parts with `sep` between neighbours; `""` for no parts. */
  function Join(parts: seq<string>, sep: string): string
  {
    if |parts| == 0 then ""
    else if |parts| == 1 then parts[0]
    else parts[0] + sep + Join(parts[1..], sep)
  }

  /** `s.split(c)` for a one-character separator: never empty, no piece holds `c`. */
  function Split(s: string, c: char): (pieces: seq<string>)
    ensures |pieces| >= 1
    ensures forall k :: 0 <= k < |pieces| ==> c !in pieces[k]
  {
    if |s| == 0 then [""]
    else
      var rest := Split(s[1..], c);
      if s[0] == c then [""] + rest
      else [[s[0]] + rest[0]] + rest[1..]
  }

  /** `s.endsWith(suffix)`. */
  predicate EndsWith(s: string, suffix: string)
  {
    |suffix| <= |s| && s[|s| - |suffix|..] == suffix
  }

  /** The position of the first `c` in `s`. */
  function IndexOf(s: string, c: char): (pos: nat)
    requires c in s
    ensures pos < |s| && s[pos] == c
    ensures c !in s[..pos]
  {
    if s[0] == c then 0
    else
      assert c in s[1..] by { assert s == [s[0]] + s[1..]; }
      var p := IndexOf(s[1..], c);
      assert s[..p + 1] == [s[0]] + s[1..][..p];
      1 + p
  }

  lemma IndexOfAfterPrefix(p: string, c: char, s: string)
    requires c !in p
    ensures c in p + [c] + s
    ensures IndexOf(p + [c] + s, c) == |p|
  {
    var t := p + [c] + s;
    assert t[|p|] == c;
    assert t[..|p|] == p;
    var i := IndexOf(t, c);
    assert i <= |p| ==> t[..i] == p[..i];
  }

  /** Nothing made of `c`-free parts and a `c`-free separator contains `c`. */
  lemma {:induction false} JoinAvoids(parts: seq<string>, sep: string, c: char)
    requires c !in sep
    requires forall k :: 0 <= k < |parts| ==> c !in parts[k]
    ensures c !in Join(parts, sep)
  {
    if |parts| > 1 {
      JoinAvoids(parts[1..], sep, c);
    }
  }

  lemma {:induction false} SplitWithout(p: string, c: char)
    requires c !in p
    ensures Split(p, c) == [p]
  {
    if |p| > 0 {
      SplitWithout(p[1..], c);
      assert [p[0]] + p[1..] == p;
    }
  }

  lemma {:induction false} SplitAfterPrefix(p: string, c: char, s: string)
    requires c !in p
    ensures Split(p + [c] + s, c) == [p] + Split(s, c)
  {
    var t := p + [c] + s;
    if |p| == 0 {
      assert t[0] == c && t[1..] == s;
    } else {
      assert t[0] == p[0];
      assert t[1..] == p[1..] + [c] + s;
      SplitAfterPrefix(p[1..], c, s);
      assert [p[0]] + p[1..] == p;
    }
  }

  /** Splitting a join on its separator gives the parts back when no part holds it. */
  lemma {:induction false} SplitJoin(parts: seq<string>, c: char)
    requires |parts| >= 1
    requires forall k :: 0 <= k < |parts| ==> c !in parts[k]
    ensures Split(Join(parts, [c]), c) == parts
  {
    if |parts| == 1 {
      SplitWithout(parts[0], c);
    } else {
      SplitJoin(parts[1..], c);
      SplitAfterPrefix(parts[0], c, Join(parts[1..], [c]));
      assert parts == [parts[0]] + parts[1..];
    }
  }
}
